=== FILE: README.md ===
# Bounded result store of lsdweb, in Dafny

lsdweb turns a short prompt into a generated web page. It stores each page
as `<id>.html` in one flat directory, `./public/results`. It lists the
newest pages on a history page, and a janitor deletes the oldest files once
the directory holds more than `MAX_RESULT_FILES` (10000). This project
models that store and the rules around it as pure functions over explicit
inputs, and proves their properties:

- `results_dir.dfy` (`ResultsDir`): a directory snapshot of `(name, mtime)`
  entries, and the stable sort both users of the snapshot apply. The sort is
  keyed oldest-first or newest-first.
- `cleanup.dfy` (`Cleanup`): `cleanupResults`. It picks the oldest excess
  files and unlinks them in order. The first failing `stat` or `unlink` ends
  the pass, and the error is caught and logged.
- `scheduler.dfy` (`Scheduler`): when passes start. There is a 15-minute
  interval, and an `fs.watch` callback that debounces named change events
  into a single pending 10-second timer. Time is an explicit millisecond
  clock. When a timer is due at the same instant an event arrives, the timer
  fires first.
- `history.dfy` (`History`): GET `/history`. It strips `.html`, sorts newest
  first, and keeps a window of `MAX_RESULT_FILES * 7 / 10` entries.
- `naming.dfy` (`Naming`): the identifier `shortcode-uuid`, the stored file,
  the redirect target, and how these fit together with the history listing
  and the rewrite middleware.
- `rewrite.dfy` (`Rewrite`): the extensionless-GET middleware, with Node's
  POSIX `path.extname` written out.
- `hallucinate.dfy` (`Hallucinate`): POST `/hallucinate`. It covers request
  validation (zod's `trim`, `min`, `max` and `startsWith`), the three
  chained completion stages, and the `/?error=1` early exits.
- `infinite_scroll.dfy` (`InfiniteScroll`): the client's infinite scroll.
  Its state is the page counter, the names already shown, and the scroll
  debounce timer. The DOM and `fetch` are replaced by a sequence of replies.
- `options.dfy` (`Options`) and `maybe.dfy` (`Maybe`): the two configured
  constants and an `Option` type.

The filesystem becomes explicit inputs. A listing gives each name its `stat`
outcome, a set names the files whose `unlink` rejects, and another names
the paths whose `writeFile` rejects. The completion
service becomes its three replies. `uuidv4()` becomes an arbitrary string.

Points where the code's behaviour is easy to misread:

- The history window is `slice(0, MAX_RESULT_FILES * 0.7)`. `slice`
  truncates its end, so for the configured cap the window is the floor of
  70% of it (7000), not the ceiling.
- One failed `unlink` aborts the rest of the pass. It is not skipped while
  the batch continues.
- The GET route has no pagination. The client POSTs `{ page }` to
  `/history`, but this server revision does not route a POST there. The
  client is therefore modelled against abstract replies, and no paginated
  server listing is modelled.
- The context limit is 32 characters once trimmed. The shortcode is used as
  the completion service returned it, without sanitising, followed by a full uuid.

Two things only hold for some identifiers. The redirect to `/results/<id>`
is proved to reach the stored file when the identifier contains no `.`, `?`,
`#`, `%` or `\` (`Naming.RedirectServesWrittenFile`). The browser cuts the URL at
`#` and reads `\` as `/`; static serving percent-decodes the path, so
`a%41-<uuid>` looks up `aA-<uuid>.html` and `50%off-<uuid>` is refused as
malformed. A dotted shortcode such as
`v1.2` gives the path an extension, so the rewrite is switched off
(`Naming.DottedIdentifierIsNotRewritten`). A shortcode such as `a/b` names
a file in a subdirectory that does not exist, so the write rejects and no
JSON `redirectTo` is sent (`Hallucinate.HandleHallucinate`). Other shortcodes
with `/` or `..` are written, but not where the text of the path suggests:
`../x` puts the page at `./public/x-<uuid>.html`, outside the results
directory, where the history never lists it and cleanup never deletes it,
though its redirect `/results/../x-<uuid>` still reaches it once the browser
normalises it; `/x` stores `x-<uuid>.html`, which the history then shows
under a name that is not the identifier. The shortcode comes from
the completion service, so nothing in the code rules any of this out.

## Model

| member | source | states |
|---|---|---|
| ResultsDir.Sort | src/cleanup-results.ts:37 | the result is ordered by the comparator's key and is a permutation of the snapshot: same multiset, same length |
| Cleanup.Victims | src/cleanup-results.ts:20-43 | no victims when the listing holds at most the cap; otherwise exactly `n - cap` of them, in ascending mtime order |
| Cleanup.VictimsAreOldest | src/cleanup-results.ts:37-43 | victims and survivors together are the snapshot as a multiset, and every victim is at most as new as every survivor: the oldest go first and the newest are never deleted |
| Cleanup.Survivors | src/cleanup-results.ts:43 | the files left after a full pass number `min(n, cap)` and are drawn from the snapshot |
| Cleanup.UnlinkInOrder | src/cleanup-results.ts:44-46 | the files unlinked are the victims, in order, up to the first one whose unlink rejects; that one is the error caught, and no victim after it is touched; with no rejection all victims go and no error is reported |
| Cleanup.CleanupResults | src/cleanup-results.ts:16-51 | at most the cap: nothing is stat'ed or deleted and no error; a rejected stat: nothing deleted and the error is caught; otherwise the victims of the snapshot are unlinked in order as above; when no victim's unlink fails exactly the victims are deleted; every deleted name was in the listing, so the pass never creates or changes files |
| Scheduler.Start | src/cleanup-results.ts:67 | at start no debounced cleanup is pending and the first interval tick is CLEANUP_CHECK_INTERVAL away |
| Scheduler.OnWatch | src/cleanup-results.ts:59-65 | an event without a filename (null or empty) changes nothing; one with a filename leaves exactly one pending cleanup, due 10000 ms after it, replacing any earlier one; the interval is untouched |
| Scheduler.Ticks | src/cleanup-results.ts:67 | the interval ticks due up to `now` number `(now - next) / interval + 1` (none if the next tick is later), and the following tick is due after `now` |
| Scheduler.Advance | src/cleanup-results.ts:61-67 | when the clock advances, every due interval tick starts a pass and the interval re-arms on its own phase, at the first tick after `now`; a due debounced timer starts exactly one pass and is cleared; a timer that is not yet due stays pending |
| Scheduler.BurstCollapses | src/cleanup-results.ts:59-65 | a burst of named events, each less than 10 s after the previous, starts no debounced pass while it lasts; it leaves one pending cleanup due 10 s after the last event, and that cleanup runs exactly when the clock reaches it |
| Scheduler.PeriodicIgnoresWatch | src/cleanup-results.ts:67 | whatever watch events arrive, the periodic passes and the next tick are those of the interval alone |
| History.HistoryWindow | src/index.ts:197 | the window is the integer part of 70% of the cap: `10w <= 7 cap < 10(w + 1)` |
| History.DisplayName | src/index.ts:192 | the displayed name followed by the file's last five characters is the file name; names shorter than five characters display as empty |
| History.ConfiguredWindow | src/index.ts:197 | with the configured cap of 10000 the history lists at most the newest 7000 files |
| History.HistoryList | src/index.ts:186-197 | the list holds `min(n, window)` entries, ordered non-increasing by mtime; listed and hidden entries together are the relabelled snapshot; every listed entry is at least as new as every hidden one |
| Naming.Identifier | src/index.ts:168 | the identifier is the shortcode, then `-` at its own position, then the uuid |
| Naming.DisplayNameRoundTrip | src/index.ts:192 | the history displays the file `<id>.html` as exactly `id` |
| Naming.StoredNameRoundTrip | src/index.ts:192 | appending `.html` to the displayed name of any `.html` file gives back the stored name |
| Naming.RedirectServesWrittenFile | src/index.ts:168-171 | for an identifier without `.`, `?`, `#`, `%` or `\`, the redirect target, once rewritten by the middleware as written (and equally by the corrected one) and served statically, names the file written at `./public/results/<id>.html` |
| Naming.DottedIdentifierIsNotRewritten | src/index.ts:60 | an identifier with a dot after its first character gives the redirect path an extension, so the rewrite does not apply to it |
| Naming.NewestWriteListedFirst | src/index.ts:196-197 | a page written after every other file is the first history entry, displayed under its identifier |
| Rewrite.ExtName | src/index.ts:60 | `path.extname` is either empty or a dot followed by neither dots nor slashes; when non-empty it is a proper suffix of the last path component, so it starts at that component's last dot; it is non-empty exactly when that component has a dot after its first character and is not `..`; a path without dots has none |
| Rewrite.RewriteAsWritten | src/index.ts:59-63 | `.html` is appended to the URL iff the method is GET, the path has no extension and is neither `/` nor `/history`; otherwise the request is unchanged |
| Rewrite.QueryDefeatsRewriteAsWritten | src/index.ts:61 | with a query string present, the rewrite as written leaves the path unchanged, so `.html` lands in the query |
| Rewrite.Rewrite | src/index.ts:59-63 | corrected rewrite: under the same condition, the path gains `.html` and the query string is kept; otherwise the request is unchanged |
| Rewrite.RewriteAddsHtmlExtension | src/index.ts:59-63 | after the corrected rewrite, a path that did not end in `/` has the extension `.html` |
| Rewrite.AgreeWithoutQuery | src/index.ts:61 | without a query string, the rewrite as written and the corrected one coincide |
| Hallucinate.TrimPadded | src/index.ts:80 | trimming white space, then a core that starts and ends with a non-space character, then more white space, gives the core |
| Hallucinate.ZodVerify | src/index.ts:79-89 | a body is accepted iff the context is a string whose trimmed length is 1..32 and the key is a string starting with `sk-`; the accepted parameters carry the raw, untrimmed context |
| Hallucinate.PaddedContextAccepted | src/index.ts:79-89 | white space around a valid context does not count towards its length, and the route goes on with the padded value |
| Hallucinate.BlankContextRefused | src/index.ts:80 | a context of white space only is refused, whatever its length |
| Hallucinate.Generate | src/index.ts:92-171 | the redirect is `/?error=1`, with nothing written, exactly when one of the index, CSS and JS contents is empty; with all three non-empty, a rejected `writeFile` writes nothing and the handler's promise rejects, so no JSON `redirectTo` is sent, and otherwise the file is written; on success the file is `./public/results/<shortcode>-<uuid>.html`, the redirect is `/results/<shortcode>-<uuid>`, and the page holds the title, body, CSS and JS; one, two or three completion requests are made, each starting with the system prompt and the raw context |
| Hallucinate.HandleHallucinate | src/index.ts:78-172 | an invalid body gets `/?error=1`, no write and no completion request; a write happens iff the body is valid, all three contents are non-empty and the write does not reject; `/?error=1` is returned exactly when the body is invalid or a content is empty; the handler's promise rejects, with no JSON `redirectTo`, exactly when the write rejects; a reply naming a page only follows its write; every completion request carries the untrimmed context |
| InfiniteScroll.Initial | public/js/history.js:8-10 | the client starts at page 0, with nothing shown and no timer pending |
| InfiniteScroll.AbsorbElements | public/js/history.js:26-37 | after a reply, the names shown are exactly the names shown before plus the names in the reply |
| InfiniteScroll.AbsorbAppendsUnseen | public/js/history.js:26-37 | the loop appends, after the old list, exactly the reply's names that are neither shown nor earlier in the reply, in reply order |
| InfiniteScroll.AbsorbKeepsDistinct | public/js/history.js:27-36 | no name is ever shown twice |
| InfiniteScroll.Update | public/js/history.js:16-41 | an empty reply returns false and changes nothing; a non-empty one returns true, advances the page by exactly one and appends the unseen names; shown names stay distinct |
| InfiniteScroll.OnScroll | public/js/history.js:47-55 | a scroll within 20 px of the bottom leaves exactly one pending update, due 1000 ms later, replacing any earlier one; any other scroll changes nothing |
| InfiniteScroll.FireScrollTimer | public/js/history.js:53 | a due scroll timer is cleared and runs one update: the page advances by one iff the reply is non-empty, and the unseen names are appended; before it is due nothing changes |
| InfiniteScroll.RetrieveUntilScrollable | public/js/history.js:61-65 | it uses no more replies than it is given; the client it returns is the result of updating with the replies used, one by one; a reply is requested only while the content fits, as checked before each request; it continues only past non-empty replies; it stops at an empty reply or once the content no longer fits; the page advances once per non-empty reply used; shown names stay distinct |
| InfiniteScroll.StopsAtEmptyReply | public/js/history.js:62 | no reply after the first empty one is requested |

## Findings

| source | as written | input that shows it | evidently intended | confidence | as-written member | corrected member |
|---|---|---|---|---|---|---|
| src/index.ts:61 | `request.url += ".html"` appends to the whole URL, after any query string | `GET /index?ref=1` becomes URL `/index?ref=1.html`; its path stays `/index`, so static serving finds no file | serve the `.html` file named by the path, keeping the query (`/index.html?ref=1`) | medium, not executed | Rewrite.RewriteAsWritten (shown by Rewrite.QueryDefeatsRewriteAsWritten) | Rewrite.Rewrite (proved by Rewrite.RewriteAddsHtmlExtension; Naming.RedirectServesWrittenFile holds for both) |

## Left out

- Filesystem I/O (`readdir`, `stat`, `unlink`, `writeFile`, `mkdirSync`, `fs.watch`) is not modelled. It becomes inputs: a listing with per-file stat outcomes, a set of names whose unlink rejects, and a set of paths whose write rejects. Creating the directory at startup is I/O only. A rejected write is taken to leave no file behind; a write that fails part-way may leave a truncated one, which is not modelled.
- Concurrency is not modelled. This covers cleanup passes racing page writes, overlapping passes (an interval tick during a slow pass), and updates started by the scroll timer while `retrieveUntilScrollable` runs. The code takes no locks, so this is about interleaving, not about the sequential logic modelled here.
- When several stats reject, `Promise.all` reports whichever rejects first in time. The model reports the first in listing order.
- GET `/history` does not handle a failed `stat`. The model assumes a snapshot in which every stat succeeded.
- `mtimeMs` is a floating-point number. Times are modelled as integer milliseconds.
- History.HistoryWindow: `MAX_RESULT_FILES * 0.7` is floating-point. The window is `cap * 7 / 10`, which agrees for the configured cap (7000) but not for every cap: `90 * 0.7` is 62.99999999999999, so `slice` keeps 62 where the model says 63.
- ResultsDir.Sort: the contract does not state stability, that is, that equal mtimes keep their listing order. The insertion sort is stable by construction, as `Array.prototype.sort` is.
- Hallucinate.ZodVerify: lengths are counted in characters, not in UTF-16 code units. A character outside the Basic Multilingual Plane counts once here and twice in the source.
- History.DisplayName: `slice(0, -5)` drops five UTF-16 code units, and the model drops five characters. They differ only for a name that does not end in `.html` and has a character outside the Basic Multilingual Plane among its last five.
- Cleanup.CleanupResults: a rejected `readdir` is not modelled, because the listing is an input. In the source it is caught and logged like the other errors, and nothing is deleted.
- The completion service is represented only by its replies. Failures of the calls themselves are not modelled: a rejected request, a missing `choices[0]`, or a `JSON.parse` error escape the handler. What `JSON.parse` yields is given as an input.
- Hallucinate.HandleHallucinate: what follows a rejection that escapes the handler (a rejected `writeFile`, or any of the completion failures above) is not modelled. The model only says that no JSON `redirectTo` is sent. The route is an `async` handler with no `catch`, and the process registers only a SIGINT handler. Under Express 4 the rejection goes unhandled, and Node 15 or later then ends the whole process, cleanup timers included. Under Express 5 the default error handler answers 500. The source does not pin the Express major version.
- Naming: path resolution by `writeFile` and by the browser is not modelled. `ResultPath` and `RedirectTarget` are the texts the code builds, so `..` segments and repeated `/` are not resolved. A shortcode `../x` writes `./public/x-<uuid>.html`, outside the bounded store; a shortcode `/x` writes `x-<uuid>.html` in the results directory, listed under a name other than the identifier.
- Naming.RedirectServesWrittenFile: URL parsing in the browser and percent-decoding in static serving are not modelled. The lemma therefore excludes identifiers with `#`, `\` or `%`, whose redirect reaches another path or is refused.
- cheerio page assembly and the history HTML are not modelled. A generated page is the record of its title, body, CSS and script. HTML escaping of names is not modelled.
- `uuidv4()` is an arbitrary string parameter. Its freedom from collisions is probabilistic, so no uniqueness is claimed.
- `retrieveUntilScrollable` waits 100 ms between rounds; the model runs the rounds back to back. Whether the container still fits is an input function of how many entries it shows.
- After the scroll timer fires, the source keeps the spent handle, and the model clears it. Clearing a spent timeout does nothing, so the behaviour is the same.
- The rate limiter, the rest of static serving, `/health`, the listen and shutdown code, `public/index.js`, `public/js/index.js` and `public/history.js` are not modelled. They are routing and DOM wiring with no state of their own.
- The watcher's `eventType` is not modelled, because the callback never reads it.

=== FILE: cleanup.dfy ===
/** The cleanup pass of src/cleanup-results.ts: list the results directory,
    and when it holds more than the cap, stat every file, sort oldest first
    and unlink the oldest excess one by one. Every rejection inside the pass
    is caught and logged, never propagated. */
module Cleanup {
  import opened Maybe
  import opened ResultsDir

  /** One name returned by `readdir` with the outcome of its `stat`
      (None when the stat rejects, e.g. because the file vanished). */
  datatype Listed = Listed(name: string, mtime: Option<int>)

  /** The error a pass catches and logs. */
  datatype PassError = StatFailed(name: string) | UnlinkFailed(name: string)

  /** What one pass did: the files it unlinked, in order, and the error it
      caught, if any. */
  datatype Pass = Pass(deleted: seq<string>, caught: Option<PassError>)

  function Names(s: seq<Entry>): (r: seq<string>)
    ensures |r| == |s|
    ensures forall i :: 0 <= i < |s| ==> r[i] == s[i].name
  {
    seq(|s|, i requires 0 <= i < |s| => s[i].name)
  }

  predicate AllStatted(listing: seq<Listed>) {
    forall i :: 0 <= i < |listing| ==> listing[i].mtime.Some?
  }

  /** The `(fullpath, time)` records of a listing whose stats all succeeded. */
  function Snapshot(listing: seq<Listed>): (r: seq<Entry>)
    requires AllStatted(listing)
    ensures |r| == |listing|
    ensures forall i :: 0 <= i < |r| ==> r[i] == Entry(listing[i].name, listing[i].mtime.value)
  {
    seq(|listing|, i requires 0 <= i < |listing| => Entry(listing[i].name, listing[i].mtime.value))
  }

  /** Position of the first stat that rejected. */
  function FirstUnstatted(listing: seq<Listed>): (k: nat)
    requires !AllStatted(listing)
    ensures k < |listing| && listing[k].mtime.None?
    ensures forall j :: 0 <= j < k ==> listing[j].mtime.Some?
  {
    if listing[0].mtime.None? then 0 else 1 + FirstUnstatted(listing[1..])
  }

  /** The files that stay: the newest `maxFiles`, or everything when there
      is no excess. */
  function Survivors(snapshot: seq<Entry>, maxFiles: nat): (r: seq<Entry>)
    ensures |r| == Min(|snapshot|, maxFiles)
    ensures multiset(r) <= multiset(snapshot)
  {
    if |snapshot| <= maxFiles then snapshot
    else
      var sorted := Sort(snapshot, OldestFirst);
      assert sorted == sorted[..|snapshot| - maxFiles] + sorted[|snapshot| - maxFiles..];
      sorted[|snapshot| - maxFiles..]
  }

  /** The files a pass selects for deletion, in the order it unlinks them:
      none when there is no excess, otherwise the excess count of them, in
      ascending mtime order. */
  function Victims(snapshot: seq<Entry>, maxFiles: nat): (victims: seq<Entry>)
    ensures |snapshot| <= maxFiles ==> victims == []
    ensures |snapshot| > maxFiles ==> |victims| == |snapshot| - maxFiles
    ensures SortedBy(victims, OldestFirst)
  {
    if |snapshot| <= maxFiles then []
    else Sort(snapshot, OldestFirst)[..|snapshot| - maxFiles]
  }

  /** Victims and survivors split the snapshot, and no survivor is older
      than any victim: the oldest files go first and the newest stay. */
  lemma VictimsAreOldest(snapshot: seq<Entry>, maxFiles: nat)
    ensures multiset(Victims(snapshot, maxFiles)) + multiset(Survivors(snapshot, maxFiles)) == multiset(snapshot)
    ensures forall v, k :: v in Victims(snapshot, maxFiles) && k in Survivors(snapshot, maxFiles) ==> v.time <= k.time
  {
    if |snapshot| > maxFiles {
      var sorted := Sort(snapshot, OldestFirst);
      var cut := |snapshot| - maxFiles;
      assert sorted == sorted[..cut] + sorted[cut..];
      forall v, k | v in sorted[..cut] && k in sorted[cut..]
        ensures v.time <= k.time
      {
        var i :| 0 <= i < cut && sorted[i] == v;
        var j :| cut <= j < |sorted| && sorted[j] == k;
        assert Rank(sorted[i], OldestFirst) <= Rank(sorted[j], OldestFirst);
      }
    }
  }

  /** The relation between the victims, the names whose unlink rejects, and
      the outcome of the deletion loop: the victims are unlinked in order up
      to the first rejection, which is caught; nothing after it is touched. */
  ghost predicate UnlinkedInOrder(victims: seq<Entry>, unlinkFails: set<string>, p: Pass) {
    && |p.deleted| <= |victims|
    && p.deleted == Names(victims[..|p.deleted|])
    && (forall j :: 0 <= j < |p.deleted| ==> victims[j].name !in unlinkFails)
    && (if |p.deleted| == |victims| then p.caught == None
        else
          && victims[|p.deleted|].name in unlinkFails
          && p.caught == Some(UnlinkFailed(victims[|p.deleted|].name)))
  }

  /** The `for … of` loop over the victims with an awaited `unlink` each. */
  method UnlinkInOrder(victims: seq<Entry>, unlinkFails: set<string>) returns (p: Pass)
    ensures UnlinkedInOrder(victims, unlinkFails, p)
  {
    var deleted: seq<string> := [];
    var i := 0;
    while i < |victims|
      invariant 0 <= i <= |victims|
      invariant deleted == Names(victims[..i])
      invariant forall j :: 0 <= j < i ==> victims[j].name !in unlinkFails
    {
      if victims[i].name in unlinkFails {
        return Pass(deleted, Some(UnlinkFailed(victims[i].name)));
      }
      deleted := deleted + [victims[i].name];
      i := i + 1;
    }
    assert victims[..i] == victims;
    return Pass(deleted, None);
  }

  /** One run of `cleanupResults` over a listing, with the set of names whose
      `unlink` would reject. */
  method CleanupResults(listing: seq<Listed>, unlinkFails: set<string>, maxFiles: nat) returns (p: Pass)
    ensures |listing| <= maxFiles ==> p == Pass([], None)
    ensures |listing| > maxFiles && !AllStatted(listing) ==>
      p == Pass([], Some(StatFailed(listing[FirstUnstatted(listing)].name)))
    ensures |listing| > maxFiles && AllStatted(listing) ==>
      UnlinkedInOrder(Victims(Snapshot(listing), maxFiles), unlinkFails, p)
    ensures && |listing| > maxFiles && AllStatted(listing)
            && (forall v :: v in Victims(Snapshot(listing), maxFiles) ==> v.name !in unlinkFails)
            ==> p == Pass(Names(Victims(Snapshot(listing), maxFiles)), None)
    ensures forall k :: 0 <= k < |p.deleted| ==> exists i :: 0 <= i < |listing| && listing[i].name == p.deleted[k]
  {
    if |listing| <= maxFiles {
      return Pass([], None);
    }
    if !AllStatted(listing) {
      return Pass([], Some(StatFailed(listing[FirstUnstatted(listing)].name)));
    }
    var snapshot := Snapshot(listing);
    var victims := Victims(snapshot, maxFiles);
    p := UnlinkInOrder(victims, unlinkFails);
    if |p.deleted| < |victims| {
      assert victims[|p.deleted|] in victims;
    }
    VictimsAreOldest(snapshot, maxFiles);
    assert multiset(victims) <= multiset(snapshot);
    forall k | 0 <= k < |p.deleted|
      ensures exists i :: 0 <= i < |listing| && listing[i].name == p.deleted[k]
    {
      assert victims[k] in multiset(victims);
      assert victims[k] in multiset(snapshot);
      var i :| 0 <= i < |snapshot| && snapshot[i] == victims[k];
      assert listing[i].name == p.deleted[k];
    }
  }
}

=== FILE: hallucinate.dfy ===
/** POST /hallucinate (src/index.ts): validate the body, ask the completion
    service for the page's index (title, body, shortcode), then its CSS,
    then its script, and only when all three came back non-empty write the
    page and redirect to it. Every failure redirects to `/?error=1` before
    anything is written, except a rejected `writeFile`, which rejects the
    handler's promise, so no JSON `redirectTo` is sent. The completion service is represented by its three
    replies; what `JSON.parse` makes of the first one is given alongside,
    and the filesystem by the set of paths whose write rejects. */
module Hallucinate {
  import opened Maybe
  import Naming

  /** Upper bound on the trimmed context length. */
  const MAX_CONTEXT: nat := 32

  /** The redirect of every failed request. */
  const ERROR_REDIRECT: string := "/?error=1"

  /** The characters `String.prototype.trim` strips: ECMAScript white space
      and line terminators. */
  predicate IsJsSpace(c: char) {
    || c == '\t' || c == '\n' || c == '\U{000B}' || c == '\U{000C}' || c == '\r'
    || c == ' ' || c == '\U{00A0}' || c == '\U{1680}' || ('\U{2000}' <= c <= '\U{200A}')
    || c == '\U{2028}' || c == '\U{2029}' || c == '\U{202F}' || c == '\U{205F}'
    || c == '\U{3000}' || c == '\U{FEFF}'
  }

  /** Drops the leading white space. */
  function TrimStart(s: string): (r: string)
    ensures |r| <= |s| && r == s[|s| - |r|..]
    ensures forall i :: 0 <= i < |s| - |r| ==> IsJsSpace(s[i])
    ensures r == "" || !IsJsSpace(r[0])
  {
    if |s| > 0 && IsJsSpace(s[0]) then TrimStart(s[1..]) else s
  }

  /** Drops the trailing white space. */
  function TrimEnd(s: string): (r: string)
    ensures |r| <= |s| && r == s[..|r|]
    ensures forall i :: |r| <= i < |s| ==> IsJsSpace(s[i])
    ensures r == "" || !IsJsSpace(r[|r| - 1])
  {
    if |s| > 0 && IsJsSpace(s[|s| - 1]) then TrimEnd(s[..|s| - 1]) else s
  }

  /** `String.prototype.trim`, as zod's `.trim()` applies it. */
  function Trim(s: string): string {
    TrimEnd(TrimStart(s))
  }

  /** Trimming a string made of white space, a core that neither starts nor
      ends with white space, and more white space gives back the core. */
  lemma TrimPadded(before: string, core: string, after: string)
    requires forall i :: 0 <= i < |before| ==> IsJsSpace(before[i])
    requires forall i :: 0 <= i < |after| ==> IsJsSpace(after[i])
    requires core != "" && !IsJsSpace(core[0]) && !IsJsSpace(core[|core| - 1])
    ensures Trim(before + core + after) == core
  {
    var s := before + core + after;
    var front := TrimStart(s);
    assert !IsJsSpace(s[|before|]);
    assert |s| - |front| <= |before|;
    assert forall i :: 0 <= i < |before| ==> IsJsSpace(s[i]);
    assert front[0] == s[|s| - |front|];
    assert |s| - |front| == |before|;
    assert front == core + after;
    var back := TrimEnd(front);
    assert !IsJsSpace(front[|core| - 1]);
    assert |back| >= |core|;
    assert forall i :: |core| <= i < |front| ==> IsJsSpace(front[i]);
    assert back[|back| - 1] == front[|back| - 1];
    assert |back| == |core|;
  }

  /** A body field that is missing or not a string is None. */
  datatype Body = Body(context: Option<string>, openAIAPIKey: Option<string>)

  /** What `zodVerify` hands back on success: the request body itself. */
  datatype Parameters = Parameters(context: string, openAIAPIKey: string)

  predicate StartsWith(s: string, prefix: string) {
    |prefix| <= |s| && s[..|prefix|] == prefix
  }

  /** `zodVerify` with the route's schema: the context must be a string of
      1 to 32 characters once trimmed, the key a string starting with `sk-`;
      on success the raw body comes back, the context untrimmed. */
  function ZodVerify(body: Body): (r: Option<Parameters>)
    ensures r.Some? <==>
      && body.context.Some? && 1 <= |Trim(body.context.value)| <= MAX_CONTEXT
      && body.openAIAPIKey.Some? && StartsWith(body.openAIAPIKey.value, "sk-")
    ensures r.Some? ==> r.value == Parameters(body.context.value, body.openAIAPIKey.value)
  {
    match (body.context, body.openAIAPIKey)
    case (Some(context), Some(key)) =>
      if 1 <= |Trim(context)| <= MAX_CONTEXT && StartsWith(key, "sk-") then
        Some(Parameters(context, key))
      else None
    case _ => None
  }

  /** White space around the context does not count towards its length, and
      the context the route goes on with keeps it. */
  lemma PaddedContextAccepted(before: string, core: string, after: string, key: string)
    requires forall i :: 0 <= i < |before| ==> IsJsSpace(before[i])
    requires forall i :: 0 <= i < |after| ==> IsJsSpace(after[i])
    requires 1 <= |core| <= MAX_CONTEXT && !IsJsSpace(core[0]) && !IsJsSpace(core[|core| - 1])
    requires StartsWith(key, "sk-")
    ensures ZodVerify(Body(Some(before + core + after), Some(key)))
            == Some(Parameters(before + core + after, key))
  {
    TrimPadded(before, core, after);
  }

  /** A context of nothing but white space is refused, however long. */
  lemma BlankContextRefused(context: string, key: Option<string>)
    requires forall i :: 0 <= i < |context| ==> IsJsSpace(context[i])
    ensures ZodVerify(Body(Some(context), key)) == None
  {
    assert TrimStart(context) == "";
  }

  /** The fields the route reads out of the parsed index reply. */
  datatype IndexFields = IndexFields(title: string, body: string, shortcode: string)

  /** The completion service's message content at each stage (None: null),
      and the parse of the index content. */
  datatype Replies = Replies(index: Option<string>, fields: IndexFields, css: Option<string>, js: Option<string>)

  /** The parts the template is filled with. */
  datatype Page = Page(title: string, body: string, css: string, js: string)

  /** A file written by the route. */
  datatype Written = Written(path: string, page: Page)

  /** The JSON reply's `redirectTo` (None: the handler's promise rejects
      and no JSON `redirectTo` is sent), the file written if any, and the
      developer messages of each completion request, in order. */
  datatype Outcome = Outcome(redirectTo: Option<string>, written: Option<Written>, prompts: seq<seq<string>>)

  /** `!content` is false: the content is neither null nor empty. */
  predicate Truthy(content: Option<string>) {
    content.Some? && content.value != ""
  }

  function IndexPrompt(system: string, context: string): seq<string> {
    [system, "context: " + context, "goal: index"]
  }

  function CssPrompt(system: string, context: string, body: string): seq<string> {
    [system, "context: " + context, "body: " + body, "goal: css"]
  }

  function ScriptPrompt(system: string, context: string, body: string, css: string): seq<string> {
    [system, "context: " + context, "body: " + body, "css: " + css, "goal: js"]
  }

  /** All three completion contents came back non-empty. */
  predicate Complete(replies: Replies) {
    Truthy(replies.index) && Truthy(replies.css) && Truthy(replies.js)
  }

  /** The route after validation: the three chained completions, then the
      write and the redirect to the new page. A path in `unwritable` is one
      whose `writeFile` rejects (a shortcode such as `a/b` naming a directory
      that does not exist, a name too long for the filesystem); the rejection escapes the handler, so nothing is
      written and no JSON `redirectTo` is sent. */
  function Generate(parameters: Parameters, system: string, replies: Replies, uuid: string,
                    unwritable: set<string>): (o: Outcome)
    ensures o.written.Some? <==>
      Complete(replies) && Naming.ResultPath(Naming.Identifier(replies.fields.shortcode, uuid)) !in unwritable
    ensures o.redirectTo == Some(ERROR_REDIRECT) <==> !Complete(replies)
    ensures o.redirectTo.None? <==>
      Complete(replies) && Naming.ResultPath(Naming.Identifier(replies.fields.shortcode, uuid)) in unwritable
    ensures o.written.Some? ==>
      var id := Naming.Identifier(replies.fields.shortcode, uuid);
      && o.written.value.path == Naming.ResultPath(id)
      && o.redirectTo == Some(Naming.RedirectTarget(id))
      && o.written.value.page == Page(replies.fields.title, replies.fields.body, replies.css.value, replies.js.value)
    ensures |o.prompts| == (if !Truthy(replies.index) then 1 else if !Truthy(replies.css) then 2 else 3)
    ensures forall i :: 0 <= i < |o.prompts| ==>
      |o.prompts[i]| >= 3 && o.prompts[i][0] == system && o.prompts[i][1] == "context: " + parameters.context
  {
    var context := parameters.context;
    var fields := replies.fields;
    var first := [IndexPrompt(system, context)];
    if !Truthy(replies.index) then Outcome(Some(ERROR_REDIRECT), None, first)
    else
      var second := first + [CssPrompt(system, context, fields.body)];
      if !Truthy(replies.css) then Outcome(Some(ERROR_REDIRECT), None, second)
      else
        var third := second + [ScriptPrompt(system, context, fields.body, replies.css.value)];
        if !Truthy(replies.js) then Outcome(Some(ERROR_REDIRECT), None, third)
        else
          var id := Naming.Identifier(fields.shortcode, uuid);
          var page := Page(fields.title, fields.body, replies.css.value, replies.js.value);
          RedirectIsNotError(id);
          if Naming.ResultPath(id) in unwritable then Outcome(None, None, third)
          else Outcome(Some(Naming.RedirectTarget(id)), Some(Written(Naming.ResultPath(id), page)), third)
  }

  /** The route handler for one request, given the system prompt, the
      completion replies, the uuid drawn and the paths whose write rejects. */
  function HandleHallucinate(body: Body, system: string, replies: Replies, uuid: string,
                             unwritable: set<string>): (o: Outcome)
    ensures ZodVerify(body).None? ==> o == Outcome(Some(ERROR_REDIRECT), None, [])
    ensures o.written.Some? <==>
      && ZodVerify(body).Some? && Complete(replies)
      && Naming.ResultPath(Naming.Identifier(replies.fields.shortcode, uuid)) !in unwritable
    ensures o.redirectTo == Some(ERROR_REDIRECT) <==> ZodVerify(body).None? || !Complete(replies)
    ensures o.redirectTo.None? <==>
      && ZodVerify(body).Some? && Complete(replies)
      && Naming.ResultPath(Naming.Identifier(replies.fields.shortcode, uuid)) in unwritable
    ensures o.written.Some? ==>
      var id := Naming.Identifier(replies.fields.shortcode, uuid);
      && o.written.value.path == Naming.ResultPath(id)
      && o.redirectTo == Some(Naming.RedirectTarget(id))
    ensures ZodVerify(body).Some? ==>
      && |o.prompts| == (if !Truthy(replies.index) then 1 else if !Truthy(replies.css) then 2 else 3)
      && forall i :: 0 <= i < |o.prompts| ==> |o.prompts[i]| >= 3 && o.prompts[i][1] == "context: " + body.context.value
  {
    match ZodVerify(body)
    case None => Outcome(Some(ERROR_REDIRECT), None, [])
    case Some(parameters) =>
      Generate(parameters, system, replies, uuid, unwritable)
  }

  /** A page's address is never the error redirect. */
  lemma RedirectIsNotError(id: string)
    ensures Naming.RedirectTarget(id) != ERROR_REDIRECT
  {
    assert Naming.RedirectTarget(id)[1] == 'r';
    assert ERROR_REDIRECT[1] == '?';
  }
}

=== FILE: history.dfy ===
/** GET /history (src/index.ts): stat every result file, strip the `.html`
    suffix for display, sort newest first and keep only the window of the
    newest 70% of the cap. */
module History {
  import opened ResultsDir
  import Options

  /** The end `maxFiles * 0.7` handed to `slice`, which truncates it. The
      product is taken as exact: true for the configured cap (7000), but
      the floating-point product can fall just short of a whole number
      (`90 * 0.7` is 62.99999999999999, so `slice` keeps 62, not 63). */
  function HistoryWindow(maxFiles: nat): (w: nat)
    ensures w * 10 <= maxFiles * 7 < (w + 1) * 10
  {
    maxFiles * 7 / 10
  }

  /** With the configured cap the page lists the newest 7000 files. */
  lemma ConfiguredWindow()
    ensures HistoryWindow(Options.MAX_RESULT_FILES) == 7000
  {
  }

  /** `filename.slice(0, -5)`: everything but the last five characters, and
      the empty string for names shorter than that. */
  function DisplayName(filename: string): (r: string)
    ensures |filename| >= 5 ==> r + filename[|filename| - 5..] == filename
    ensures |filename| < 5 ==> r == ""
  {
    if |filename| >= 5 then filename[..|filename| - 5] else ""
  }

  /** The `{ filename, time }` records built before sorting. */
  function Labelled(snapshot: seq<Entry>): (r: seq<Entry>)
    ensures |r| == |snapshot|
    ensures forall i :: 0 <= i < |r| ==> r[i] == Entry(DisplayName(snapshot[i].name), snapshot[i].time)
  {
    seq(|snapshot|, i requires 0 <= i < |snapshot| => Entry(DisplayName(snapshot[i].name), snapshot[i].time))
  }

  /** The entries the route leaves out: everything past the window. */
  function Hidden(snapshot: seq<Entry>, maxFiles: nat): (r: seq<Entry>)
    ensures |r| == |snapshot| - Min(|snapshot|, HistoryWindow(maxFiles))
  {
    var sorted := Sort(Labelled(snapshot), NewestFirst);
    sorted[Min(|sorted|, HistoryWindow(maxFiles))..]
  }

  /** The listed entries, in the order the page shows them. */
  function HistoryList(snapshot: seq<Entry>, maxFiles: nat): (r: seq<Entry>)
    ensures |r| == Min(|snapshot|, HistoryWindow(maxFiles))
    ensures SortedBy(r, NewestFirst)
    ensures multiset(r) + multiset(Hidden(snapshot, maxFiles)) == multiset(Labelled(snapshot))
    ensures forall x, y :: x in r && y in Hidden(snapshot, maxFiles) ==> y.time <= x.time
  {
    var sorted := Sort(Labelled(snapshot), NewestFirst);
    var cut := Min(|sorted|, HistoryWindow(maxFiles));
    NewestSplit(sorted, cut);
    sorted[..cut]
  }

  /** Cutting a newest-first sequence splits it, newer part first. */
  lemma NewestSplit(sorted: seq<Entry>, cut: nat)
    requires SortedBy(sorted, NewestFirst) && cut <= |sorted|
    ensures multiset(sorted[..cut]) + multiset(sorted[cut..]) == multiset(sorted)
    ensures forall x, y :: x in sorted[..cut] && y in sorted[cut..] ==> y.time <= x.time
  {
    assert sorted == sorted[..cut] + sorted[cut..];
    forall x, y | x in sorted[..cut] && y in sorted[cut..]
      ensures y.time <= x.time
    {
      var i :| 0 <= i < cut && sorted[..cut][i] == x;
      var j :| 0 <= j < |sorted| - cut && sorted[cut..][j] == y;
      assert sorted[i] == x && sorted[cut + j] == y;
      assert Rank(sorted[i], NewestFirst) <= Rank(sorted[cut + j], NewestFirst);
    }
  }
}

=== FILE: infinite_scroll.dfy ===
/** The client side of the history page (public/js/history.js): an
    infinite scroll that asks for page after page, shows each name once, and
    stops paginating at the first empty reply. The DOM and `fetch` are
    abstracted away: replies are given as a sequence, and whether the
    container still fits its content without scrolling is a function of how
    many entries it shows. */
module InfiniteScroll {
  import opened Maybe

  /** One `{ filename, time }` record of a history reply. */
  datatype Item = Item(filename: string, time: int)

  /** The state `main` closes over: the next page to ask for, the names
      already shown, and the deadline of the pending scroll timer. */
  datatype Client = Client(page: nat, loaded: seq<string>, scrollTimer: Option<int>)

  /** Delay of the update after a near-bottom scroll, in milliseconds. */
  const SCROLL_DELAY: int := 1000

  /** How close to the bottom (in pixels) a scroll must come. */
  const BOTTOM_TOLERANCE: int := 20

  /** The state when the page loads. */
  function Initial(): (c: Client)
    ensures c.page == 0 && c.loaded == [] && c.scrollTimer == None
  {
    Client(0, [], None)
  }

  predicate Distinct(s: seq<string>) {
    forall i, j :: 0 <= i < j < |s| ==> s[i] != s[j]
  }

  function Filenames(items: seq<Item>): (names: seq<string>)
    ensures |names| == |items|
    ensures forall i :: 0 <= i < |items| ==> names[i] == items[i].filename
  {
    seq(|items|, i requires 0 <= i < |items| => items[i].filename)
  }

  /** The loop over a reply: each name not yet in `loaded` is appended, the
      check seeing the names appended before it. */
  function Absorb(loaded: seq<string>, names: seq<string>): seq<string>
    decreases |names|
  {
    if names == [] then loaded
    else Absorb(if names[0] in loaded then loaded else loaded + [names[0]], names[1..])
  }

  /** Reference definition: the names of a reply that are neither loaded nor
      earlier in the reply, in reply order. */
  function Unseen(loaded: seq<string>, names: seq<string>): seq<string>
    decreases |names|
  {
    if names == [] then []
    else
      var init := names[..|names| - 1];
      var last := names[|names| - 1];
      Unseen(loaded, init) + (if last in loaded || last in init then [] else [last])
  }

  /** Absorbing one more name appends it unless it is already there. */
  lemma {:induction false} AbsorbSnoc(loaded: seq<string>, names: seq<string>, x: string)
    ensures Absorb(loaded, names + [x])
            == (var m := Absorb(loaded, names); if x in m then m else m + [x])
    decreases |names|
  {
    if names == [] {
      assert [x][1..] == [];
    } else {
      assert (names + [x])[1..] == names[1..] + [x];
      AbsorbSnoc(if names[0] in loaded then loaded else loaded + [names[0]], names[1..], x);
    }
  }

  /** What an absorb shows is what was loaded and what the reply named. */
  lemma {:induction false} AbsorbElements(loaded: seq<string>, names: seq<string>, x: string)
    ensures x in Absorb(loaded, names) <==> x in loaded || x in names
    decreases |names|
  {
    if names != [] {
      AbsorbElements(if names[0] in loaded then loaded else loaded + [names[0]], names[1..], x);
      assert names == [names[0]] + names[1..];
    }
  }

  /** The loop appends exactly the unseen names of the reply, in order. */
  lemma {:induction false} AbsorbAppendsUnseen(loaded: seq<string>, names: seq<string>)
    ensures Absorb(loaded, names) == loaded + Unseen(loaded, names)
    decreases |names|
  {
    if names != [] {
      var init := names[..|names| - 1];
      var last := names[|names| - 1];
      assert names == init + [last];
      AbsorbAppendsUnseen(loaded, init);
      AbsorbSnoc(loaded, init, last);
      AbsorbElements(loaded, init, last);
    }
  }

  /** Absorbing never shows a name twice. */
  lemma {:induction false} AbsorbKeepsDistinct(loaded: seq<string>, names: seq<string>)
    ensures Distinct(loaded) ==> Distinct(Absorb(loaded, names))
    decreases |names|
  {
    if names != [] {
      AbsorbKeepsDistinct(if names[0] in loaded then loaded else loaded + [names[0]], names[1..]);
    }
  }

  /** `updateHistoryDOM` applied to the reply it fetched: an empty reply
      changes nothing and reports false; otherwise the unseen names are
      shown, the page advances by one and it reports true. */
  function Update(c: Client, reply: seq<Item>): (r: (Client, bool))
    ensures reply == [] ==> r == (c, false)
    ensures reply != [] ==> r.1 && r.0.page == c.page + 1 && r.0.scrollTimer == c.scrollTimer
    ensures reply != [] ==> r.0.loaded == c.loaded + Unseen(c.loaded, Filenames(reply))
    ensures Distinct(c.loaded) ==> Distinct(r.0.loaded)
  {
    if reply == [] then (c, false)
    else
      var names := Filenames(reply);
      AbsorbAppendsUnseen(c.loaded, names);
      AbsorbKeepsDistinct(c.loaded, names);
      (c.(page := c.page + 1, loaded := Absorb(c.loaded, names)), true)
  }

  /** The scroll listener: near the bottom, any pending update is cancelled
      and one is scheduled SCROLL_DELAY later; elsewhere nothing happens. */
  function OnScroll(c: Client, now: int, scrollTop: int, scrollHeight: int, offsetHeight: int): (r: Client)
    ensures scrollTop > scrollHeight - offsetHeight - BOTTOM_TOLERANCE ==>
      r.scrollTimer == Some(now + SCROLL_DELAY) && r.page == c.page && r.loaded == c.loaded
    ensures scrollTop <= scrollHeight - offsetHeight - BOTTOM_TOLERANCE ==> r == c
  {
    if scrollTop > scrollHeight - offsetHeight - BOTTOM_TOLERANCE then
      c.(scrollTimer := Some(now + SCROLL_DELAY))
    else c
  }

  /** The clock reaching `now`: a due scroll timer runs one update with the
      reply it fetches. */
  function FireScrollTimer(c: Client, now: int, reply: seq<Item>): (r: Client)
    ensures c.scrollTimer.Some? && c.scrollTimer.value <= now ==>
      && r.scrollTimer == None
      && r.page == c.page + (if reply == [] then 0 else 1)
      && r.loaded == c.loaded + Unseen(c.loaded, Filenames(reply))
    ensures !(c.scrollTimer.Some? && c.scrollTimer.value <= now) ==> r == c
  {
    if c.scrollTimer.Some? && c.scrollTimer.value <= now then Update(c.(scrollTimer := None), reply).0
    else c
  }

  /** How many of the first `k` replies were non-empty. */
  function NonEmpty(replies: seq<seq<Item>>, k: nat): nat
    requires k <= |replies|
  {
    if k == 0 then 0 else NonEmpty(replies, k - 1) + (if replies[k - 1] == [] then 0 else 1)
  }

  /** The client after updating with the first `k` replies, one by one. */
  function Run(c: Client, replies: seq<seq<Item>>, k: nat): Client
    requires k <= |replies|
    decreases k
  {
    if k == 0 then c else Run(Update(c, replies[0]).0, replies[1..], k - 1)
  }

  /** `retrieveUntilScrollable` against successive replies, `fits` telling
      whether the container shows that many entries without scrolling: it
      updates while the content fits and stops after the first update that
      reports false. Also returns how many replies it used. */
  function RetrieveUntilScrollable(c: Client, replies: seq<seq<Item>>, fits: nat -> bool): (r: (Client, nat))
    ensures r.1 <= |replies|
    ensures r.0 == Run(c, replies, r.1)
    ensures forall k :: 0 <= k < r.1 ==> fits(|Run(c, replies, k).loaded|)
    ensures forall i :: 0 <= i < r.1 - 1 ==> replies[i] != []
    ensures r.1 < |replies| ==> (r.1 > 0 && replies[r.1 - 1] == []) || !fits(|r.0.loaded|)
    ensures r.0.page == c.page + NonEmpty(replies, r.1)
    ensures Distinct(c.loaded) ==> Distinct(r.0.loaded)
    decreases |replies|
  {
    if !fits(|c.loaded|) || replies == [] then (c, 0)
    else
      var (next, more) := Update(c, replies[0]);
      if !more then
        (next, 1)
      else
        var (last, used) := RetrieveUntilScrollable(next, replies[1..], fits);
        NonEmptyShift(replies, used);
        assert forall k :: 0 < k <= used ==> Run(c, replies, k) == Run(next, replies[1..], k - 1);
        (last, used + 1)
  }

  /** Counting from the second reply on. */
  lemma {:induction false} NonEmptyShift(replies: seq<seq<Item>>, k: nat)
    requires 0 < |replies| && k < |replies|
    ensures NonEmpty(replies, k + 1) == (if replies[0] == [] then 0 else 1) + NonEmpty(replies[1..], k)
  {
    if k > 0 {
      NonEmptyShift(replies, k - 1);
    }
  }

  /** Pagination ends at the first empty reply: no reply after it is asked for. */
  lemma StopsAtEmptyReply(c: Client, replies: seq<seq<Item>>, fits: nat -> bool, j: nat)
    requires j < |replies| && replies[j] == []
    ensures RetrieveUntilScrollable(c, replies, fits).1 <= j + 1
  {
  }
}

=== FILE: maybe.dfy ===
/** The optional value used wherever the program has `null`, a missing field
    or a falsy string. */
module Maybe {
  datatype Option<+T> = None | Some(value: T)
}

=== FILE: naming.dfy ===
/** How a generated page is named, stored, linked to and listed
    (src/index.ts): the identifier is the shortcode, a dash and a uuid; the
    path written is the text `./public/results/<id>.html` (which the
    filesystem may resolve elsewhere when the shortcode holds `/` or `..`);
    the client is redirected
    to `/results/<id>`, which the rewrite middleware and static serving turn
    back into that file; the history route displays it as `<id>`. */
module Naming {
  import opened ResultsDir
  import History
  import Rewrite

  /** `${shortcode}-${uuidv4()}`, the uuid being an arbitrary string. */
  function Identifier(shortcode: string, uuid: string): (id: string)
    ensures |id| == |shortcode| + 1 + |uuid|
    ensures id[..|shortcode|] == shortcode
    ensures id[|shortcode|] == '-'
    ensures id[|shortcode| + 1..] == uuid
  {
    shortcode + "-" + uuid
  }

  /** Name of the stored file inside the results directory. */
  function ResultFileName(id: string): string {
    id + ".html"
  }

  /** Path handed to `writeFile`. */
  function ResultPath(id: string): string {
    "./public/results/" + ResultFileName(id)
  }

  /** The `redirectTo` of a successful generation. */
  function RedirectTarget(id: string): string {
    "/results/" + id
  }

  /** `express.static("public")`: a request path names a file under `public`. */
  function StaticFile(path: string): string {
    "./public" + path
  }

  /** Listing a stored page displays exactly its identifier. */
  lemma DisplayNameRoundTrip(id: string)
    ensures History.DisplayName(ResultFileName(id)) == id
  {
    assert ResultFileName(id)[..|id|] == id;
  }

  /** Conversely, any listed `.html` file is stored under its display name. */
  lemma StoredNameRoundTrip(filename: string)
    requires |filename| >= 5 && filename[|filename| - 5..] == ".html"
    ensures ResultFileName(History.DisplayName(filename)) == filename
  {
  }

  /** Following the redirect serves the file that was written, provided the
      identifier holds no `.` (which would give the path an extension and
      switch the rewrite off), no `?` (which would start a query), no `#`
      (which would start a fragment the browser drops), no `\` (which the
      browser reads as `/`) and no `%` (which static serving would decode,
      or refuse as malformed). It
      holds for the middleware as written, and so for the corrected one,
      which agrees with it on a URL without a query. */
  lemma {:induction false} RedirectServesWrittenFile(id: string)
    requires '.' !in id && '?' !in id
    requires '%' !in id && '#' !in id && '\\' !in id
    ensures var served := Rewrite.RewriteAsWritten(Rewrite.Request("GET", RedirectTarget(id)));
            StaticFile(Rewrite.PathOf(served.url)) == ResultPath(id)
    ensures var served := Rewrite.Rewrite(Rewrite.Request("GET", RedirectTarget(id)));
            StaticFile(Rewrite.PathOf(served.url)) == ResultPath(id)
  {
    var url := RedirectTarget(id);
    NotInConcat("/results/", id, '.');
    NotInConcat("/results/", id, '?');
    Rewrite.QueryStartOfPlainUrl(url);
    assert Rewrite.PathOf(url) == url;
    assert Rewrite.ExtName(url) == "";
    assert url[1] == 'r';
    var req := Rewrite.Request("GET", url);
    assert Rewrite.Rewrites(req);
    assert Rewrite.PathOf(Rewrite.Rewrite(req).url) == url + ".html";
    StaticPathOfRedirect(id);
    Rewrite.AgreeWithoutQuery(req);
  }

  lemma StaticPathOfRedirect(id: string)
    ensures StaticFile(RedirectTarget(id) + ".html") == ResultPath(id)
  {
    assert "./public" + "/results/" == "./public/results/";
  }

  lemma NotInConcat(a: string, b: string, ch: char)
    requires ch !in a && ch !in b
    ensures ch !in a + b
  {
  }

  /** A dot in the identifier (after its first character) breaks the
      redirect: the middleware sees an extension and leaves the path as it
      is, so no stored file matches it. A shortcode such as `v1.2` does
      this. */
  lemma DottedIdentifierIsNotRewritten(id: string, i: nat)
    requires '/' !in id && '?' !in id
    requires 0 < i < |id| && id[i] == '.'
    requires id != ".."
    ensures !Rewrite.Rewrites(Rewrite.Request("GET", RedirectTarget(id)))
  {
    var url := RedirectTarget(id);
    NotInConcat("/results/", id, '?');
    Rewrite.QueryStartOfPlainUrl(url);
    assert Rewrite.PathOf(url) == url;
    assert url[|url| - 1] == id[|id| - 1];
    assert Rewrite.TrimTrailingSlashes(url) == url;
    assert forall j :: 8 < j < |url| ==> url[j] == id[j - 9];
    Rewrite.LastIndexUnique(url, '/', 8);
    assert url[9..] == id;
    assert Rewrite.LastComponent(url) == id;
    assert Rewrite.LastIndexOf(id, '.') >= i;
  }

  /** A page written after every other file is the first entry of the
      history, displayed under its identifier. */
  lemma NewestWriteListedFirst(snapshot: seq<Entry>, id: string, t: int, maxFiles: nat)
    requires Entry(ResultFileName(id), t) in snapshot
    requires forall e :: e in snapshot && e.name != ResultFileName(id) ==> e.time < t
    requires History.HistoryWindow(maxFiles) > 0
    ensures |History.HistoryList(snapshot, maxFiles)| > 0
    ensures History.HistoryList(snapshot, maxFiles)[0].name == id
  {
    var labelled := History.Labelled(snapshot);
    var sorted := Sort(labelled, NewestFirst);
    var list := History.HistoryList(snapshot, maxFiles);
    assert list == sorted[..Min(|sorted|, History.HistoryWindow(maxFiles))];
    var i :| 0 <= i < |snapshot| && snapshot[i] == Entry(ResultFileName(id), t);
    DisplayNameRoundTrip(id);
    assert labelled[i] == Entry(id, t);
    assert Entry(id, t) in multiset(sorted);
    var k :| 0 <= k < |sorted| && sorted[k] == Entry(id, t);
    assert sorted[0].time >= t by {
      if k > 0 {
        assert Rank(sorted[0], NewestFirst) <= Rank(sorted[k], NewestFirst);
      }
    }
    assert sorted[0] in multiset(labelled);
    var j :| 0 <= j < |labelled| && labelled[j] == sorted[0];
    assert snapshot[j] in snapshot;
    assert snapshot[j].name == ResultFileName(id);
  }
}

=== FILE: options.dfy ===
/** Deployment constants of the result store (src/options.ts). */
module Options {
  /** How many generated pages the results directory keeps. */
  const MAX_RESULT_FILES: nat := 10000

  /** Period of the unconditional cleanup timer, in milliseconds (15 minutes). */
  const CLEANUP_CHECK_INTERVAL: nat := 15 * 60 * 1000
}

=== FILE: results_dir.dfy ===
/** The results directory as one snapshot: every file name with the
    modification time a single `readdir` + `stat` pass saw for it, and the
    stable comparison sort both the cleanup pass and the history route apply
    to such a snapshot. */
module ResultsDir {

  /** One file of the results directory and its modification time (ms). */
  datatype Entry = Entry(name: string, time: int)

  /** The two comparators the program sorts with: `a.time - b.time`
      (oldest first) and `b.time - a.time` (newest first). */
  datatype Order = OldestFirst | NewestFirst

  /** The key whose ascending order is `order`. */
  function Rank(e: Entry, order: Order): int {
    match order
    case OldestFirst => e.time
    case NewestFirst => -e.time
  }

  ghost predicate SortedBy(s: seq<Entry>, order: Order) {
    forall i, j :: 0 <= i < j < |s| ==> Rank(s[i], order) <= Rank(s[j], order)
  }

  /** Inserts `e`, which came before every element of `s` in the input,
      in front of the first element it does not outrank, so that equal keys
      keep their input order (Array.prototype.sort is stable). */
  function Insert(e: Entry, s: seq<Entry>, order: Order): (r: seq<Entry>)
    requires SortedBy(s, order)
    ensures SortedBy(r, order)
    ensures multiset(r) == multiset(s) + multiset{e}
    ensures |r| == |s| + 1
    ensures forall x :: x in r ==> x in s || x == e
  {
    if s == [] || Rank(e, order) <= Rank(s[0], order) then
      [e] + s
    else
      var rest := Insert(e, s[1..], order);
      assert s == [s[0]] + s[1..];
      ConsSorted(s[0], rest, order);
      [s[0]] + rest
  }

  /** Putting an element that outranks nobody in front keeps a sequence sorted. */
  lemma ConsSorted(x: Entry, s: seq<Entry>, order: Order)
    requires SortedBy(s, order)
    requires forall y :: y in s ==> Rank(x, order) <= Rank(y, order)
    ensures SortedBy([x] + s, order)
  {
    var r := [x] + s;
    forall i, j | 0 <= i < j < |r|
      ensures Rank(r[i], order) <= Rank(r[j], order)
    {
      if i == 0 {
        assert r[j] == s[j - 1];
        assert r[j] in s;
      } else {
        assert r[i] == s[i - 1] && r[j] == s[j - 1];
      }
    }
  }

  /** The snapshot sorted by `order`: a sorted permutation of its input. */
  function Sort(s: seq<Entry>, order: Order): (r: seq<Entry>)
    ensures SortedBy(r, order)
    ensures multiset(r) == multiset(s)
    ensures |r| == |s|
  {
    if s == [] then []
    else
      assert s == [s[0]] + s[1..];
      Insert(s[0], Sort(s[1..], order), order)
  }

  function Min(a: int, b: int): int {
    if a <= b then a else b
  }
}

=== FILE: rewrite.dfy ===
/** The extensionless-GET middleware of src/index.ts: a GET whose path has
    no extension, other than `/` and `/history`, is served as the `.html`
    file of the same name. `path.extname` is Node's POSIX version. */
module Rewrite {

  /** Index of the last `c` in `s`, or -1 when there is none. */
  function LastIndexOf(s: string, c: char): (k: int)
    ensures -1 <= k < |s|
    ensures k >= 0 ==> s[k] == c
    ensures forall j :: k < j < |s| ==> s[j] != c
  {
    if |s| == 0 then -1
    else if s[|s| - 1] == c then |s| - 1
    else LastIndexOf(s[..|s| - 1], c)
  }

  /** The three properties of LastIndexOf pin it down. */
  lemma LastIndexUnique(s: string, c: char, k: int)
    requires -1 <= k < |s|
    requires k >= 0 ==> s[k] == c
    requires forall j :: k < j < |s| ==> s[j] != c
    ensures LastIndexOf(s, c) == k
  {
  }

  /** The path without the slashes that end it. */
  function TrimTrailingSlashes(p: string): (q: string)
    ensures |q| <= |p| && q == p[..|q|]
    ensures q == "" || q[|q| - 1] != '/'
    ensures forall j :: |q| <= j < |p| ==> p[j] == '/'
  {
    if |p| > 0 && p[|p| - 1] == '/' then TrimTrailingSlashes(p[..|p| - 1]) else p
  }

  /** The last component of a path, trailing slashes ignored. */
  function LastComponent(p: string): (c: string)
    ensures '/' !in c
    ensures forall ch :: ch in c ==> ch in p
  {
    var q := TrimTrailingSlashes(p);
    var k := LastIndexOf(q, '/') + 1;
    assert q[k..] == p[k..|q|];
    InfixElements(p, k, |q|);
    q[k..]
  }

  /** Every character of a slice occurs in the whole. */
  lemma InfixElements(p: string, a: nat, b: nat)
    requires a <= b <= |p|
    ensures forall ch :: ch in p[a..b] ==> ch in p
  {
    forall ch | ch in p[a..b]
      ensures ch in p
    {
      var i :| 0 <= i < b - a && p[a..b][i] == ch;
      assert p[a + i] == ch;
    }
  }

  /** `path.extname`: the last component from its last dot on, except when
      the component has no dot, when that dot is its first character (a
      dotfile such as `.env`), or when the component is `..`. */
  function ExtName(p: string): (ext: string)
    ensures ext == "" || (ext[0] == '.' && '.' !in ext[1..] && '/' !in ext)
    ensures '.' !in p ==> ext == ""
    ensures var c := LastComponent(p);
      ext != "" ==> 0 < |c| - |ext| && c[|c| - |ext|..] == ext
    ensures var c := LastComponent(p);
      ext != "" <==> (exists k :: 0 < k < |c| && c[k] == '.') && c != ".."
  {
    var c := LastComponent(p);
    var d := LastIndexOf(c, '.');
    if d <= 0 || c == ".." then
      assert forall k :: 0 < k < |c| && c[k] == '.' ==> k <= d;
      ""
    else
      assert forall j :: 0 <= j < |c| - d - 1 ==> c[d..][1..][j] == c[d + 1 + j];
      c[d..]
  }

  /** An incoming request: its HTTP method and `url`, the path followed by
      any query string. */
  datatype Request = Request(verb: string, url: string)

  /** Where the query string starts: the first `?`, or the end. */
  function QueryStart(url: string): (k: nat)
    ensures k <= |url|
    ensures k < |url| ==> url[k] == '?'
    ensures forall j :: 0 <= j < k ==> url[j] != '?'
  {
    if |url| == 0 || url[0] == '?' then 0 else 1 + QueryStart(url[1..])
  }

  /** `request.path`: the url without its query string. */
  function PathOf(url: string): string {
    url[..QueryStart(url)]
  }

  /** The query string, `?` included, or "" when there is none. */
  function QueryOf(url: string): string {
    url[QueryStart(url)..]
  }

  /** The middleware's condition. */
  predicate Rewrites(req: Request) {
    && req.verb == "GET"
    && |ExtName(PathOf(req.url))| == 0
    && PathOf(req.url) != "/"
    && PathOf(req.url) != "/history"
  }

  /** The middleware as written: `request.url += ".html"`, which appends to
      the query string when there is one. */
  function RewriteAsWritten(req: Request): (r: Request)
    ensures r.verb == req.verb
    ensures Rewrites(req) ==> r.url == req.url + ".html"
    ensures !Rewrites(req) ==> r == req
  {
    if Rewrites(req) then req.(url := req.url + ".html") else req
  }

  /** With a query string present, the as-written rewrite leaves the path
      that static serving looks up unchanged, so the `.html` file is not
      found. */
  lemma QueryDefeatsRewriteAsWritten(req: Request)
    requires Rewrites(req)
    requires '?' in req.url
    ensures PathOf(RewriteAsWritten(req).url) == PathOf(req.url)
  {
    PathOfExtended(req.url, ".html");
  }

  /** Text appended after a query string stays in the query. */
  lemma PathOfExtended(url: string, tail: string)
    requires '?' in url
    ensures PathOf(url + tail) == PathOf(url)
  {
    var i :| 0 <= i < |url| && url[i] == '?';
    assert QueryStart(url) < |url|;
    QueryStartOfExtension(url, tail);
    var k := QueryStart(url);
    assert (url + tail)[..k] == url[..k];
  }

  /** Appending to a url that already has a query string does not move it. */
  lemma {:induction false} QueryStartOfExtension(url: string, tail: string)
    requires QueryStart(url) < |url|
    ensures QueryStart(url + tail) == QueryStart(url)
    decreases |url|
  {
    if url[0] != '?' {
      assert (url + tail)[1..] == url[1..] + tail;
      QueryStartOfExtension(url[1..], tail);
    }
  }

  /** When the url has no query string, appending text that has none either
      gives a url whose whole text is the path. */
  lemma {:induction false} QueryStartOfPlainUrl(url: string)
    requires '?' !in url
    ensures QueryStart(url) == |url|
    decreases |url|
  {
    if |url| > 0 {
      assert url[0] in url;
      assert forall c :: c in url[1..] ==> c in url;
      QueryStartOfPlainUrl(url[1..]);
    }
  }

  /** The middleware as intended: `.html` goes at the end of the path, in
      front of any query string. */
  function Rewrite(req: Request): (r: Request)
    ensures r.verb == req.verb
    ensures Rewrites(req) ==> PathOf(r.url) == PathOf(req.url) + ".html" && QueryOf(r.url) == QueryOf(req.url)
    ensures !Rewrites(req) ==> r == req
  {
    if Rewrites(req) then
      var path := PathOf(req.url);
      var url := path + ".html" + QueryOf(req.url);
      assert '?' !in path + ".html";
      QueryStartAfter(path + ".html", QueryOf(req.url));
      req.(url := url)
    else req
  }

  /** A query-free prefix followed by a query string: the query starts
      exactly at the end of the prefix. */
  lemma {:induction false} QueryStartAfter(prefix: string, query: string)
    requires '?' !in prefix
    requires query == "" || query[0] == '?'
    ensures QueryStart(prefix + query) == |prefix|
    decreases |prefix|
  {
    if |prefix| > 0 {
      assert prefix[0] in prefix;
      assert forall c :: c in prefix[1..] ==> c in prefix;
      assert (prefix + query)[1..] == prefix[1..] + query;
      QueryStartAfter(prefix[1..], query);
    }
  }

  /** Appending `.html` to a path that does not end in a slash gives a path
      whose extension is `.html`. */
  lemma {:induction false} HtmlExtension(p: string)
    requires p != "" && p[|p| - 1] != '/'
    ensures ExtName(p + ".html") == ".html"
  {
    var q := p + ".html";
    assert TrimTrailingSlashes(q) == q;
    var s := LastIndexOf(p, '/');
    LastIndexUnique(q, '/', s);
    var c0 := p[s + 1..];
    var c := q[s + 1..];
    assert c == c0 + ".html";
    assert LastComponent(q) == c;
    assert |c0| > 0;
    LastIndexUnique(c, '.', |c0|);
    assert c != "..";
  }

  /** The rewritten path names an `.html` file: its extension is `.html`
      whenever the original path does not end in a slash. */
  lemma RewriteAddsHtmlExtension(req: Request)
    requires Rewrites(req)
    requires PathOf(req.url) != "" && PathOf(req.url)[|PathOf(req.url)| - 1] != '/'
    ensures ExtName(PathOf(Rewrite(req).url)) == ".html"
  {
    HtmlExtension(PathOf(req.url));
  }

  /** The two definitions differ only when there is a query string. */
  lemma AgreeWithoutQuery(req: Request)
    requires '?' !in req.url
    ensures Rewrite(req) == RewriteAsWritten(req)
  {
    QueryStartOfPlainUrl(req.url);
  }
}

=== FILE: scheduler.dfy ===
/** When cleanup passes start (src/cleanup-results.ts): a `setInterval`
    that fires every CLEANUP_CHECK_INTERVAL, and an `fs.watch` callback that
    debounces change events into one pending `setTimeout`. Time is an
    explicit millisecond clock; at a given instant, timers that are due fire
    before the event that arrives at that instant is handled. */
module Scheduler {
  import opened Maybe
  import Options

  /** Delay between the last change event and the debounced cleanup. */
  const WATCH_DELAY: int := 10 * 1000

  /** The single pending debounced cleanup (`watcherCleanupTimeout`) as its
      deadline, and the due time of the next interval tick. */
  datatype Timers = Timers(pending: Option<int>, nextTick: int)

  /** How many cleanup passes each trigger started. */
  datatype Runs = Runs(periodic: nat, debounced: nat)

  /** An `fs.watch` notification; the filename may be missing or empty. */
  datatype WatchEvent = WatchEvent(at: int, filename: Option<string>)

  /** Module load at time `now`: no pending cleanup, the interval armed. */
  function Start(now: int): (t: Timers)
    ensures t.pending == None
    ensures t.nextTick - now == Options.CLEANUP_CHECK_INTERVAL
  {
    Timers(None, now + Options.CLEANUP_CHECK_INTERVAL)
  }

  /** The `if (filename)` test: null and the empty string are falsy. */
  predicate Named(filename: Option<string>) {
    filename.Some? && filename.value != ""
  }

  /** The watch callback: a named event cancels any pending cleanup and
      schedules one WATCH_DELAY later; an unnamed one is ignored. The
      interval is never touched. */
  function OnWatch(t: Timers, e: WatchEvent): (r: Timers)
    ensures !Named(e.filename) ==> r == t
    ensures Named(e.filename) ==> r.pending == Some(e.at + WATCH_DELAY)
    ensures r.nextTick == t.nextTick
  {
    if Named(e.filename) then t.(pending := Some(e.at + WATCH_DELAY)) else t
  }

  /** Interval ticks due at or before `now`, starting from the tick due at
      `next`: how many fire, and when the next one is due. */
  function Ticks(next: int, now: int): (r: (nat, int))
    ensures r.1 == next + r.0 * Options.CLEANUP_CHECK_INTERVAL
    ensures now < r.1
    ensures next <= now ==> r.0 == (now - next) / Options.CLEANUP_CHECK_INTERVAL + 1
    ensures now < next ==> r.0 == 0
    decreases now - next
  {
    if now < next then (0, next)
    else
      var (k, after) := Ticks(next + Options.CLEANUP_CHECK_INTERVAL, now);
      (k + 1, after)
  }

  /** Lets the clock reach `now`: every due interval tick starts a pass and
      re-arms, and a due debounced timer starts a pass and is cleared. */
  function Advance(t: Timers, now: int): (r: (Timers, Runs))
    ensures now < r.0.nextTick
    ensures r.0.nextTick == Ticks(t.nextTick, now).1
    ensures r.1.periodic == Ticks(t.nextTick, now).0
    ensures t.pending.Some? && t.pending.value <= now ==> r.1.debounced == 1 && r.0.pending == None
    ensures !(t.pending.Some? && t.pending.value <= now) ==> r.1.debounced == 0 && r.0.pending == t.pending
  {
    var (ticks, next) := Ticks(t.nextTick, now);
    if t.pending.Some? && t.pending.value <= now then
      (Timers(None, next), Runs(ticks, 1))
    else
      (Timers(t.pending, next), Runs(ticks, 0))
  }

  /** Runs the clock through a sequence of watch events. */
  function Feed(t: Timers, events: seq<WatchEvent>): (r: (Timers, Runs))
    decreases |events|
  {
    if events == [] then (t, Runs(0, 0))
    else
      var (t1, r1) := Advance(t, events[0].at);
      var (t2, r2) := Feed(OnWatch(t1, events[0]), events[1..]);
      (t2, Runs(r1.periodic + r2.periodic, r1.debounced + r2.debounced))
  }

  predicate Chronological(events: seq<WatchEvent>) {
    forall i :: 0 < i < |events| ==> events[i - 1].at <= events[i].at
  }

  /** In a chronological sequence no event precedes an earlier one. */
  lemma {:induction false} ChronologicalMonotone(events: seq<WatchEvent>, i: nat, j: nat)
    requires Chronological(events)
    requires i <= j < |events|
    ensures events[i].at <= events[j].at
    decreases j - i
  {
    if i < j {
      ChronologicalMonotone(events, i, j - 1);
    }
  }

  /** A burst of named events, each less than WATCH_DELAY after the previous
      one, starts no debounced pass while it lasts, leaves exactly one pending
      cleanup due WATCH_DELAY after the last event, and that one runs exactly
      when the clock reaches its deadline. */
  lemma {:induction false} BurstCollapses(t: Timers, events: seq<WatchEvent>, later: int)
    requires |events| > 0
    requires forall i :: 0 <= i < |events| ==> Named(events[i].filename)
    requires forall i :: 0 < i < |events| ==> events[i - 1].at <= events[i].at < events[i - 1].at + WATCH_DELAY
    requires t.pending.None? || events[0].at < t.pending.value
    requires events[|events| - 1].at <= later
    ensures Feed(t, events).1.debounced == 0
    ensures Feed(t, events).0.pending == Some(events[|events| - 1].at + WATCH_DELAY)
    ensures Advance(Feed(t, events).0, later).1.debounced
            == (if events[|events| - 1].at + WATCH_DELAY <= later then 1 else 0)
    decreases |events|
  {
    var t1 := OnWatch(Advance(t, events[0].at).0, events[0]);
    assert t1.pending == Some(events[0].at + WATCH_DELAY);
    if |events| > 1 {
      var rest := events[1..];
      assert rest[|rest| - 1] == events[|events| - 1];
      assert rest[0] == events[1];
      BurstCollapses(t1, rest, later);
    }
  }

  /** Starting `a <= b` from the same tick, counting ticks up to `a` and then
      on to `b` is counting them up to `b` at once. */
  lemma {:induction false} TicksCompose(next: int, a: int, b: int)
    requires a <= b
    ensures Ticks(next, a).0 + Ticks(Ticks(next, a).1, b).0 == Ticks(next, b).0
    ensures Ticks(Ticks(next, a).1, b).1 == Ticks(next, b).1
    decreases a - next
  {
    if next <= a {
      TicksCompose(next + Options.CLEANUP_CHECK_INTERVAL, a, b);
    }
  }

  /** The interval is independent of the watcher: however many events of
      whatever kind arrive, the periodic passes up to the last event are the
      ticks of the interval alone. */
  lemma {:induction false} PeriodicIgnoresWatch(t: Timers, events: seq<WatchEvent>)
    requires |events| > 0
    requires Chronological(events)
    ensures Feed(t, events).1.periodic == Ticks(t.nextTick, events[|events| - 1].at).0
    ensures Feed(t, events).0.nextTick == Ticks(t.nextTick, events[|events| - 1].at).1
    decreases |events|
  {
    var (t1, r1) := Advance(t, events[0].at);
    var t2 := OnWatch(t1, events[0]);
    if |events| > 1 {
      var rest := events[1..];
      assert rest[|rest| - 1] == events[|events| - 1];
      assert Chronological(rest) by {
        forall i | 0 < i < |rest|
          ensures rest[i - 1].at <= rest[i].at
        {
          assert rest[i - 1] == events[i] && rest[i] == events[i + 1];
        }
      }
      PeriodicIgnoresWatch(t2, rest);
      assert events[0].at <= events[1].at;
      ChronologicalMonotone(events, 0, |events| - 1);
      TicksCompose(t.nextTick, events[0].at, events[|events| - 1].at);
    }
  }
}
